=== FILE: README.md ===
# Trivia quiz session, modelled in Dafny

The system is a browser trivia quiz in one script, `script.js`. It fetches
multiple-choice questions from a question bank. For each question it builds
the options by shuffling the incorrect answers together with the correct one
(a Fisher–Yates swap loop). It then shows the questions one at a time, each
with a 30-second countdown. It scores a point when the checked selection is
the correct option, and it moves on when Next is clicked or the countdown
runs out. After the last question it lists an answer key.

This project models that core as values and pure functions:

- `decimal.dfy` (module `Decimal`): how template literals print integers, and
  readers that parse such text back.
- `clock.dfy` (module `Clock`): `formatTime`. It models JavaScript's truncating
  `%` and `Math.floor(s / 60)` explicitly. It proves the `MM:SS` shape for
  0 ≤ s < 6000, and that the display and a parser of it are inverses.
- `shuffle.dfy` (module `Shuffle`): `shuffleOptions` and `shuffleAnswers`.
  `Math.random` is replaced by a sequence of draws `j` with `0 <= j <= i`
  (`Admissible`). `ShuffleOptions` is the swap loop as a method. Its
  invariants tie it to `Settle`/`FisherYates`, a recursive definition of the
  same loop. It proves that the result is a permutation of the input, and
  that every permutation is reachable by some admissible draws.
- `countdown.dfy` (module `Countdown`): `startTimer`, `stopTimer` and
  `resetTimer`, plus the decrement in the interval callback. They act on a
  `Timer` record: the remaining seconds, and whether an interval is
  scheduled.
- `questions.dfy` (module `Questions`): the per-question record built in
  `fetchQuestions`, `indexOf`, and the lines of the answer key.
- `quiz.dfy` (module `Quiz`): the globals `questions`, `currentQuestion`,
  `score`, `selectedAnswer` and `timeRemaining` as one immutable `Session`.
  Each of `loadQuestion`, `selectAnswer`, `checkAnswer`, `nextQuestion` and a
  timer tick is a pure transition. The session also keeps the few page facts
  that decide which later events can happen:
  - whether the option buttons are enabled;
  - whether Next is enabled;
  - whether the completed view has hidden the controls;
  - the answer-list lines appended so far.
- `play.dfy` (module `Play`): the page's events (option click, Check, Next, one
  timer firing), gated as the page gates them. It defines the invariant of
  every state reachable from a successful load, and proves lemmas about
  scoring, timeouts and the answer key.

The model follows the code, including two quirks:

- The Check button is never disabled (script.js:127). Checking a correct
  selection twice scores twice (`Play.SecondCheckScoresAgain`).
- `nextQuestion` calls `resetTimer` after the finish branch too
  (script.js:133-135). The countdown therefore keeps running after the quiz
  is completed. Each time it runs out, the whole answer key is appended again
  (`Play.CompletedQuizRepeatsKey`).

The intended behaviour of the quiz differs
from what `script.js` does in several places. The model follows the code in
each:

- The intended behaviour rejects a second check. The code scores it again.
- The intended behaviour has a phase enumeration and a summary object carrying
  score and total. The code has neither: the phase is derived from the index
  and the button states, and the end of the quiz shows only the answer-key
  lines.
- The intended behaviour stops the timer when the quiz finishes. The code keeps it
  running.
- The intended behaviour fails a selection outside the `AwaitingSelection` phase.
  In the code the option buttons are disabled after a check and hidden after
  completion, so such clicks never reach `selectAnswer`.
- The intended behaviour lists the correct answer among the options exactly
  once. The code does not ensure it: if the question bank repeats the correct
  answer among the incorrect ones, the options hold it twice and `indexOf`
  (script.js:109) picks the first. So a check scores only when the selection
  is the first position holding the correct answer.
- The intended behaviour is an unbiased shuffle. The model states
  reachability of every permutation instead; see `## Left out`.

## Model

| member | source | states |
|---|---|---|
| Decimal.NatToDecimal | script.js:149 | `${n}` for n ≥ 0 is a non-empty digit string. It has one digit exactly when n < 10 and at most two exactly when n < 100. It starts with '0' only for 0 |
| Decimal.DecimalRoundTrip | script.js:149 | Reading the printed digits of n gives back n |
| Decimal.IntToString | script.js:184 | `${i}` starts with '-' exactly when i < 0. The digits after any sign read back as \|i\| and have no leading zero, except the single "0" for 0 |
| Clock.JsRem | script.js:183 | JavaScript's `%`: the remainder lies strictly between -b and b and has the sign of the dividend, and the dividend is the remainder plus a multiple of b (the quotient rounded toward zero). Together these fix the value, e.g. -1 for -1 % 60 |
| Clock.Pad2 | script.js:184 | Padding a non-negative number gives at least two digits, with a leading '0' below 10 and three or more digits from 100; from 10 on the digits read back as the number. A negative number is shown as "0-" followed by digits that read back as its magnitude |
| Clock.FloorDiv | script.js:182 | `Math.floor(a / b)` is the q with q·b ≤ a < q·b + b |
| Clock.FormatTime | script.js:181-185 | For 0 ≤ s < 6000 the display has 5 characters with ':' at index 2. From 6000 on, the minutes need three or more digits and the display is longer |
| Clock.Pad2Digits | script.js:184 | Zero-padding any 0 ≤ i < 100 gives exactly two digits that read back as i |
| Clock.Pad2Canonical | script.js:184 | Every two-digit string, leading zero included, is the padded form of its own value |
| Clock.FormatTimeShape | script.js:181-185 | For 0 ≤ s < 6000: MM reads as s / 60, SS reads as s % 60 with 0 ≤ s % 60 ≤ 59, and the colon sits at position 2 |
| Clock.FormatTimeRoundTrip | script.js:181-185 | Parsing the `MM:SS` display back gives the seconds it was made from |
| Clock.ParseClockCanonical | script.js:181-185 | Every `MM:SS` text with SS < 60 is exactly what `formatTime` shows for the value it reads as. So display and reading are inverse on this range |
| Clock.FormatTimeExamples | script.js:158-159 | A fresh countdown shows "00:30", and a count of zero shows "00:00" |
| Shuffle.Swap | script.js:54 | The destructuring swap exchanges the two entries, leaves every other position as it was, keeps the length and keeps the multiset of elements |
| Shuffle.Settle | script.js:52-55 | Running the loop from any point keeps the length and the multiset of elements, and never changes the positions already settled |
| Shuffle.FisherYates | script.js:51-57 | For every admissible draw sequence, the shuffle is a permutation of its input: same length, same multiset |
| Shuffle.ShuffleOptions | script.js:51-57 | The swap loop, with the array modelled as a sequence value, returns exactly the reference shuffle for the same draws. Hence it returns the same multiset of elements at the same length |
| Shuffle.ShuffleAnswers | script.js:45-48 | The options have \|incorrect\| + 1 entries, contain the correct answer, and are the multiset of the incorrect answers plus the correct one |
| Shuffle.SettleReaches | script.js:52-55 | From any point of the loop, every rearrangement of the unsettled prefix is produced by some admissible remaining draws |
| Shuffle.EveryArrangementReachable | script.js:51-57 | Every permutation of the input is the shuffle's output for some admissible draw sequence |
| Questions.IndexOf | script.js:109 | `indexOf` gives -1 exactly when the value is absent. Otherwise it gives the first position holding it |
| Questions.BuildQuestion | script.js:23-29 | A built question keeps the decoded question text and correct answer, and decodes each incorrect answer in order. Its options are a permutation of those incorrect answers plus the correct one, so they contain the correct answer |
| Questions.LoadQuestions | script.js:23-29 | One well-formed question per response item, in order. Each has the decoded prompt and correct answer, the decoded incorrect answers in their order, and one more option than incorrect answers |
| Questions.CorrectAnswerListed | script.js:45-47 | In a well-formed question, `indexOf(correctAnswerCopy)` lies in range and is never -1, and there are \|incorrect\| + 1 options |
| Questions.AnswerLine | script.js:149-151 | A line starts with the question number printed in decimal followed by ". ", then holds exactly the question's prompt, and ends with " - Correct Answer: " and the correct answer |
| Questions.AnswerKey | script.js:146-153 | The answer key has one line per question |
| Questions.AnswerKeyLists | script.js:149-151 | Line k of the answer key starts with the number k + 1, names question k's prompt between the number and the answer part, and ends with question k's correct answer |
| Quiz.Loading | script.js:2-7 | Before the fetch there are no questions, index and score are 0, nothing is selected, no timer runs and the count is 30. No control is enabled, the quiz is not completed and the answer list is empty |
| Quiz.ShowAnswerKey | script.js:139-154 | The quiz becomes completed and the answer list grows by one line per question: the earlier lines stay in front and the key follows. Everything else is unchanged |
| Quiz.LoadQuestion | script.js:60-92 | Past the last question, the finish branch shows the key: it appends one line per question and does not touch selection or timer. Otherwise it clears the selection, enables the options, disables Next and starts a full 30-second countdown. Index and score never change |
| Quiz.Begin | script.js:23-30 | After a successful load, the index and score are 0. An empty list is completed at once, with an empty key and no timer. Otherwise the first question is shown with no selection and a running 30-second countdown |
| Quiz.SelectAnswer | script.js:95-103 | The selection becomes the clicked index. Score, index, questions, timer, answer list and the enabled state of the options and of Next are unchanged |
| Quiz.CheckAnswer | script.js:106-129 | With no selection nothing changes. With one, the score rises by exactly 1 when the selection is the first position of the correct answer, and stays the same otherwise. Options are disabled, Next is enabled and the timer stops with its count kept. Index and selection are untouched |
| Quiz.NextQuestion | script.js:132-136 | The index rises by exactly 1 and the score is unchanged. The countdown restarts at 30 in every case. A new in-range question has no selection. Past the end the quiz is completed and the key is appended |
| Countdown.Start | script.js:157-170 | A started timer runs with the full 30 seconds, whatever timer was there before |
| Countdown.Stop | script.js:172-174 | A stopped timer no longer runs and keeps the count it had |
| Countdown.Reset | script.js:176-179 | Resetting gives the same timer as a fresh start: running with the full 30 seconds, whatever count it had |
| Countdown.Decrement | script.js:162 | One firing takes exactly one second off and leaves the interval scheduled as it was |
| Quiz.Tick | script.js:161-169 | One firing takes one second off and changes nothing else while more than one second is left. On reaching zero it is exactly `nextQuestion`. It never changes the score |
| Play.Step | script.js:111-113 | No event changes the question list. Only a Check click can change the score, and by at most +1 |
| Play.BeginEstablishes | script.js:23-30 | Loading well-formed questions gives a state that satisfies the invariant |
| Play.StepPreserves | script.js:60-179 | Every event keeps the invariant. The invariant holds that: questions stay well-formed; completed iff the index is past the end; while a question is shown, the timer runs exactly when the options are enabled and Next is enabled exactly when they are not; 1 ≤ remaining ≤ 30; the selection indexes an option; the answer list is whole copies of the key, present only once completed |
| Play.RunPreserves | script.js:60-179 | Every sequence of events keeps the invariant |
| Play.LoadedQuizKeepsInvariant | script.js:19-30 | Questions loaded from any response with any admissible draws satisfy the invariant after any sequence of user and timer events |
| Play.CorrectAnswerFound | script.js:109 | While a question is shown, `indexOf(correctAnswerCopy)` is a valid option index, never -1 |
| Play.ScoreAccounting | script.js:111-114 | Over any sequence of events the score never decreases, and it rises by at most the number of Check clicks |
| Play.SelectThenCheck | script.js:101-114 | Selecting option i and checking scores 1 exactly when i is the first position of the correct answer, and 0 otherwise. Afterwards the question remains current, the options are disabled, Next is enabled and the timer has stopped |
| Play.SecondCheckScoresAgain | script.js:127 | The Check button stays enabled: checking a correct selection twice scores 2 |
| Play.NextQuestionResetsTimer | script.js:135 | `nextQuestion` ignores the timer it is given, because `resetTimer` replaces it |
| Play.CountingDown | script.js:161-164 | While the count stays positive, k firings only take k seconds off the countdown |
| Play.TimeoutAdvances | script.js:165-168 | A running countdown left alone ends in exactly what Next does. The index rises by 1 and the score stays, so an unanswered question scores nothing |
| Play.FreshQuestionTimesOut | script.js:158-168 | A freshly started 30-second countdown is still on the same question after 29 firings. It has moved on after 30, with the score unchanged |
| Play.LastQuestionShowsKey | script.js:61-64 | Moving on from the last question completes the quiz with the score unchanged. The answer list is then exactly the key, every question in order |
| Play.CompletedQuizRepeatsKey | script.js:133-135 | After completion the countdown keeps running. Each time it runs out, another full copy of the key is appended and a new 30-second countdown starts |
| Play.AnswerThenTimeout | script.js:106-168 | Answering correctly, clicking Next and letting the next question time out gains exactly one point and moves two questions on |
| Play.TwoQuestionWalkthrough | script.js:106-168 | Two questions: "Paris" answered correctly, the second left to time out. The quiz ends completed at index 2 with score 1 |

## Left out

- Network fetch, JSON parsing and the failure message of `fetchQuestions`
  (script.js:19-35). These are I/O; the response items are an input to
  `Questions.LoadQuestions`.
- `decodeHTML` (script.js:38-42) relies on the browser's entity decoding.
  It is a parameter `decode: string -> string`.
- All DOM rendering: element lookups, button creation, CSS classes, text
  and display updates. Only the enabled and hidden states that gate later
  events are kept, as booleans. The page markup is not part of this model.
  Before the first question is loaded, the Next button is assumed disabled.
  The script attaches handlers only to the option buttons (script.js:81).
  That the Check and Next buttons call `checkAnswer` and `nextQuestion` is
  wiring in the page markup, and `Play.Step` assumes it.
- Real-time scheduling by `setInterval`/`clearInterval` (script.js:161, 173).
  A firing is a discrete event and a scheduled interval is a flag. The code
  would leak an interval if `startTimer` ran while another was scheduled. The
  model holds one countdown, and from reachable states `startTimer` only runs
  after the previous interval has been cleared.
- The `TypeError` that `checkAnswer` would throw past the last question. The
  hidden Check button prevents it. If it were reached it would abort the
  handler before any write, so `Quiz.CheckAnswer` leaves the state unchanged
  there.
- Shuffle.EveryArrangementReachable: states that every permutation is
  reachable, not that all permutations are equally likely. The distribution
  of `Math.random` is not modelled.
- Clock.FloorDiv: `seconds / 60` is floating-point division in the source.
  Integer division with a floor agrees with it for every integer the timer
  holds (0 to 30). Precision loss beyond 2^53 is not modelled.
- Decimal.NatToDecimal: always gives plain decimal digits. A template
  literal prints numbers from 1e21 on in exponent form ("1e+21"), and a
  Number holds integers above 2^53 only approximately. The page only prints
  question numbers and timer values, far below either limit.
- Decimal.IntToString: the same limit as `Decimal.NatToDecimal` applies to
  the magnitude after the sign.

=== FILE: clock.dfy ===
/** `formatTime` of script.js: a number of seconds shown as minutes and
    seconds, each padded to two characters with a leading zero. */
module Clock {

  import opened Wrappers
  import opened Decimal

  /** JavaScript's `%` on integers: the remainder takes the sign of the
      dividend, unlike Dafny's `%`, whose remainder is never negative. */
  function JsRem(a: int, b: int): (r: int)
    requires b > 0
    ensures -b < r < b
    ensures a >= 0 ==> 0 <= r
    ensures a <= 0 ==> r <= 0
    ensures a >= 0 ==> r == a % b
    ensures a == TruncDiv(a, b) * b + r
  {
    if a >= 0 then a % b
    else
      assert -a == ((-a) / b) * b + (-a) % b;
      assert -(((-a) / b) * b) == (-((-a) / b)) * b;
      -((-a) % b)
  }

  /** The quotient JavaScript's `%` pairs its remainder with: `a / b` rounded
      toward zero. */
  function TruncDiv(a: int, b: int): int
    requires b > 0
  {
    if a >= 0 then a / b else -((-a) / b)
  }

  /** `Math.floor(a / b)` for a positive divisor: the largest `q` whose
      multiple `q * b` does not exceed `a`. */
  function FloorDiv(a: int, b: int): (q: int)
    requires b > 0
    ensures q * b <= a < q * b + b
  {
    a / b
  }

  /** `${i < 10 ? "0" : ""}${i}`. */
  function Pad2(i: int): (r: string)
    ensures 0 <= i ==> 2 <= |r| && AllDigits(r)
    ensures 0 <= i < 10 ==> r[0] == '0'
    ensures 100 <= i ==> 3 <= |r|
    ensures i < 0 ==> 3 <= |r| && r[..2] == "0-"
    ensures 10 <= i ==> DecimalValue(r) == i
    ensures i < 0 ==> AllDigits(r[2..]) && DecimalValue(r[2..]) == -i
  {
    if i < 0 then
      var d := IntToString(i);
      assert ("0" + d)[2..] == d[1..];
      "0" + d
    else if i < 10 then "0" + IntToString(i)
    else IntToString(i)
  }

  /** `formatTime(seconds)`. */
  function FormatTime(seconds: int): (r: string)
    ensures 0 <= seconds < 6000 ==> |r| == 5 && r[2] == ':'
    ensures seconds >= 6000 ==> |r| >= 6
  {
    Pad2(FloorDiv(seconds, 60)) + ":" + Pad2(JsRem(seconds, 60))
  }

  /** Reads a five-character `MM:SS` display back into seconds; `None` for
      anything that is not such a display with fewer than 60 seconds. */
  function ParseClock(s: string): Option<int> {
    if |s| == 5 && s[2] == ':' && AllDigits(s[..2]) && AllDigits(s[3..]) && DecimalValue(s[3..]) < 60
    then Some(DecimalValue(s[..2]) * 60 + DecimalValue(s[3..]))
    else None
  }

  /** The value of a two-digit string is ten times its first digit plus its second. */
  lemma TwoDigitValue(t: string)
    requires |t| == 2 && AllDigits(t)
    ensures DecimalValue(t) == DigitValue(t[0]) * 10 + DigitValue(t[1])
  {
    assert t[..1][..0] == "";
    assert DecimalValue(t[..1]) == DigitValue(t[0]);
    assert t[..|t| - 1] == t[..1];
  }

  /** For 0 <= i < 100 the padded rendering is two digits that read back as `i`. */
  lemma Pad2Digits(i: int)
    requires 0 <= i < 100
    ensures |Pad2(i)| == 2 && AllDigits(Pad2(i)) && DecimalValue(Pad2(i)) == i
  {
    var t := Pad2(i);
    if i < 10 {
      assert t == ['0', DigitChar(i)];
    } else {
      assert t == NatToDecimal(i);
    }
    TwoDigitValue(t);
  }

  /** Every two-digit string is the padded rendering of its own value. */
  lemma Pad2Canonical(t: string)
    requires |t| == 2 && AllDigits(t)
    ensures Pad2(DecimalValue(t)) == t
  {
    TwoDigitValue(t);
    var v := DecimalValue(t);
    assert 0 <= v < 100;
    if v < 10 {
      assert Pad2(v) == "0" + NatToDecimal(v);
      assert t == ['0', DigitChar(v)];
    } else {
      assert Pad2(v) == NatToDecimal(v);
      assert v / 10 == DigitValue(t[0]) && v % 10 == DigitValue(t[1]);
      assert NatToDecimal(v) == [DigitChar(v / 10), DigitChar(v % 10)];
    }
  }

  /** For 0 <= s < 6000 the display has the `MM:SS` shape: minutes `s / 60`
      and seconds `s % 60`, the latter below 60, both zero-padded digits. */
  lemma FormatTimeShape(seconds: int)
    requires 0 <= seconds < 6000
    ensures var r := FormatTime(seconds);
      && |r| == 5 && r[2] == ':'
      && AllDigits(r[..2]) && DecimalValue(r[..2]) == seconds / 60
      && AllDigits(r[3..]) && DecimalValue(r[3..]) == seconds % 60
      && 0 <= seconds % 60 <= 59
  {
    var r := FormatTime(seconds);
    Pad2Digits(seconds / 60);
    Pad2Digits(seconds % 60);
    assert r[..2] == Pad2(seconds / 60);
    assert r[3..] == Pad2(seconds % 60);
  }

  /** Reading the display gives back the seconds it was made from. */
  lemma FormatTimeRoundTrip(seconds: int)
    requires 0 <= seconds < 6000
    ensures ParseClock(FormatTime(seconds)) == Some(seconds)
  {
    FormatTimeShape(seconds);
  }

  /** Every `MM:SS` display with fewer than 60 seconds is what `formatTime`
      shows for the seconds it reads as: display and reading are inverse. */
  lemma ParseClockCanonical(s: string)
    requires ParseClock(s).Some?
    ensures 0 <= ParseClock(s).value < 6000
    ensures FormatTime(ParseClock(s).value) == s
  {
    var mm, ss := DecimalValue(s[..2]), DecimalValue(s[3..]);
    var v := mm * 60 + ss;
    TwoDigitValue(s[..2]);
    assert v / 60 == mm && v % 60 == ss;
    Pad2Canonical(s[..2]);
    Pad2Canonical(s[3..]);
    assert s == s[..2] + ":" + s[3..];
  }

  /** The display at the start of a question and when the count reaches zero. */
  lemma FormatTimeExamples()
    ensures FormatTime(30) == "00:30"
    ensures FormatTime(0) == "00:00"
  {
  }

}

=== FILE: countdown.dfy ===
/** The per-question countdown of script.js (`startTimer`, `stopTimer`,
    `resetTimer` and the decrement of the interval callback). The interval
    itself is a flag: `running` is true while an interval is scheduled, and
    each firing of it is one discrete tick event. */
module Countdown {

  /** Seconds allowed per question. */
  const Duration: int := 30

  datatype Timer = Timer(remaining: int, running: bool)

  /** The timer as it is before any question is shown. */
  function Initial(): Timer {
    Timer(Duration, false)
  }

  /** `startTimer`: the count restarts at the full duration and an interval
      is scheduled. Whatever timer was there before is not consulted. */
  function Start(): (r: Timer)
    ensures r.running && r.remaining == Duration
  {
    Timer(Duration, true)
  }

  /** `stopTimer`: the interval is cleared; the count shown stays where it was. */
  function Stop(t: Timer): (r: Timer)
    ensures !r.running && r.remaining == t.remaining
  {
    t.(running := false)
  }

  /** `resetTimer`: `stopTimer` followed by `startTimer`, so the old count is
      forgotten and a full countdown runs. */
  function Reset(t: Timer): (r: Timer)
    ensures r == Start()
    ensures r.running && r.remaining == Duration
  {
    Start()
  }

  /** `timeRemaining--` in the interval callback: one second off, and the
      interval stays scheduled as it was. */
  function Decrement(t: Timer): (r: Timer)
    ensures r.remaining == t.remaining - 1
    ensures r.running == t.running
  {
    t.(remaining := t.remaining - 1)
  }

}

=== FILE: decimal.dfy ===
/** Decimal rendering of integers, as JavaScript template literals print them,
    and the readers that take such renderings back apart. */
module Decimal {

  predicate IsDigit(c: char) {
    '0' <= c <= '9'
  }

  predicate AllDigits(s: string) {
    forall i :: 0 <= i < |s| ==> IsDigit(s[i])
  }

  function DigitChar(d: nat): (c: char)
    requires d < 10
    ensures IsDigit(c)
    ensures c as int - '0' as int == d
  {
    ('0' as int + d) as char
  }

  function DigitValue(c: char): (d: nat)
    requires IsDigit(c)
    ensures d < 10
    ensures DigitChar(d) == c
  {
    c as int - '0' as int
  }

  /** The number a string of decimal digits denotes, most significant digit first. */
  function DecimalValue(s: string): nat
    requires AllDigits(s)
  {
    if |s| == 0 then 0 else DecimalValue(s[..|s| - 1]) * 10 + DigitValue(s[|s| - 1])
  }

  /** `${n}` for a non-negative integer `n`: its shortest decimal spelling. */
  function NatToDecimal(n: nat): (r: string)
    ensures 1 <= |r|
    ensures AllDigits(r)
    ensures n < 10 <==> |r| == 1
    ensures n < 100 <==> |r| <= 2
    ensures r[0] == '0' <==> n == 0
  {
    if n < 10 then [DigitChar(n)] else NatToDecimal(n / 10) + [DigitChar(n % 10)]
  }

  /** Reading a rendering back gives the number that was rendered. */
  lemma {:induction false} DecimalRoundTrip(n: nat)
    ensures DecimalValue(NatToDecimal(n)) == n
    decreases n
  {
    var r := NatToDecimal(n);
    if n < 10 {
      assert r[..0] == "";
    } else {
      DecimalRoundTrip(n / 10);
      assert r[..|r| - 1] == NatToDecimal(n / 10);
    }
  }

  /** `${i}` for any integer: a minus sign in front of the magnitude when negative. */
  function IntToString(i: int): (r: string)
    ensures 1 <= |r|
    ensures i < 0 <==> r[0] == '-'
    ensures i >= 0 ==> AllDigits(r) && DecimalValue(r) == i
    ensures i < 0 ==> AllDigits(r[1..]) && DecimalValue(r[1..]) == -i
    ensures 0 <= i ==> (r[0] == '0' <==> i == 0)
    ensures i < 0 ==> 2 <= |r| && r[1] != '0'
  {
    if i < 0 then
      DecimalRoundTrip(-i);
      var r := "-" + NatToDecimal(-i);
      assert r[1..] == NatToDecimal(-i);
      r
    else
      DecimalRoundTrip(i);
      NatToDecimal(i)
  }

  /** The longest prefix of `s` made only of digits. */
  function DigitPrefix(s: string): (r: string)
    ensures r <= s
    ensures AllDigits(r)
    ensures |r| < |s| ==> !IsDigit(s[|r|])
  {
    if |s| == 0 || !IsDigit(s[0]) then "" else [s[0]] + DigitPrefix(s[1..])
  }

  /** The number a string starts with (0 when it starts with no digit). */
  function LeadingNumber(s: string): nat {
    DecimalValue(DigitPrefix(s))
  }

  /** A run of digits followed by a non-digit is exactly the digit prefix. */
  lemma {:induction false} DigitPrefixOfConcat(d: string, rest: string)
    requires AllDigits(d)
    requires |rest| == 0 || !IsDigit(rest[0])
    ensures DigitPrefix(d + rest) == d
    decreases |d|
  {
    if |d| == 0 {
      assert d + rest == rest;
    } else {
      assert (d + rest)[1..] == d[1..] + rest;
      DigitPrefixOfConcat(d[1..], rest);
      assert d == [d[0]] + d[1..];
    }
  }

  /** A decimal rendering followed by a non-digit reads back as its number. */
  lemma LeadingNumberOf(n: nat, rest: string)
    requires |rest| == 0 || !IsDigit(rest[0])
    ensures LeadingNumber(NatToDecimal(n) + rest) == n
  {
    DigitPrefixOfConcat(NatToDecimal(n), rest);
    DecimalRoundTrip(n);
  }

}

=== FILE: play.dfy ===
/** A quiz in play: the events the page delivers to script.js, gated the way
    the page gates them, the invariant every state reached after a successful
    load keeps, and what sequences of events do to the score, the question
    index, the timer and the answer key. */
module Play {

  import opened Questions
  import opened Quiz
  import Countdown

  /** A click on option button `index`, on Check or on Next, or one firing
      of the timer's one-second interval. */
  datatype Event = OptionClicked(index: nat) | CheckClicked | NextClicked | SecondElapsed

  /** Option buttons exist only for the current question, are disabled by a
      check and are hidden once the quiz is completed. */
  predicate OptionClickable(s: Session, index: nat) {
    && !s.completed
    && s.optionsEnabled
    && s.current < |s.questions|
    && index < |s.questions[s.current].options|
  }

  /** One event. A click on a disabled or hidden control does nothing, and
      the interval fires only while it is scheduled. The Check button is
      never disabled, only hidden at the end. */
  function Step(s: Session, e: Event): (r: Session)
    ensures r.questions == s.questions
    ensures s.score <= r.score <= s.score + 1
    ensures e != CheckClicked ==> r.score == s.score
  {
    match e
    case OptionClicked(i) => if OptionClickable(s, i) then SelectAnswer(s, i) else s
    case CheckClicked => if s.completed then s else CheckAnswer(s)
    case NextClicked => if s.nextEnabled && !s.completed then NextQuestion(s) else s
    case SecondElapsed => if s.timer.running then Tick(s) else s
  }

  /** The events of `es`, in order. */
  function Run(s: Session, es: seq<Event>): Session
    decreases |es|
  {
    if |es| == 0 then s else Run(Step(s, es[0]), es[1..])
  }

  /** The number of Check clicks among `es`. */
  function Checks(es: seq<Event>): nat {
    if |es| == 0 then 0 else (if es[0] == CheckClicked then 1 else 0) + Checks(es[1..])
  }

  /** `k` firings of the interval in a row. */
  function Elapsed(k: nat): seq<Event> {
    seq(k, _ => SecondElapsed)
  }

  /** `list` is zero or more whole copies of `key`, one after the other. */
  predicate KeyCopies(list: seq<string>, key: seq<string>)
    decreases |list|
  {
    |list| == 0 || (0 < |key| <= |list| && list[..|key|] == key && KeyCopies(list[|key|..], key))
  }

  /** What holds of every state reached from a successful load. */
  predicate Inv(s: Session) {
    && (forall k :: 0 <= k < |s.questions| ==> WellFormed(s.questions[k]))
    && (s.completed <==> s.current >= |s.questions|)
    && (!s.completed ==> s.timer.running == s.optionsEnabled && s.nextEnabled == !s.optionsEnabled)
    && 1 <= s.timer.remaining <= Countdown.Duration
    && (!s.completed && s.selected.Some? ==> s.selected.value < |s.questions[s.current].options|)
    && (!s.completed ==> s.answerList == [])
    && (s.completed ==> |s.answerList| >= |s.questions|)
    && KeyCopies(s.answerList, AnswerKey(s.questions))
  }

  /** Appending one more copy of the key keeps the list made of copies. */
  lemma {:induction false} KeyCopiesAppend(list: seq<string>, key: seq<string>)
    requires KeyCopies(list, key)
    ensures KeyCopies(list + key, key)
    decreases |list|
  {
    if |key| == 0 {
      assert list + key == list;
    } else if |list| == 0 {
      assert (list + key)[..|key|] == key;
      assert (list + key)[|key|..] == [];
    } else {
      KeyCopiesAppend(list[|key|..], key);
      assert (list + key)[..|key|] == list[..|key|];
      assert (list + key)[|key|..] == list[|key|..] + key;
    }
  }

  /** A successful load of well-formed questions starts in a state of the invariant. */
  lemma BeginEstablishes(qs: seq<Question>)
    requires forall k :: 0 <= k < |qs| ==> WellFormed(qs[k])
    ensures Inv(Begin(qs))
  {
    KeyCopiesAppend([], AnswerKey(qs));
  }

  /** Every event keeps the invariant. */
  lemma StepPreserves(s: Session, e: Event)
    requires Inv(s)
    ensures Inv(Step(s, e))
  {
    var r := Step(s, e);
    if r.answerList != s.answerList {
      KeyCopiesAppend(s.answerList, AnswerKey(s.questions));
    }
  }

  /** Every sequence of events keeps the invariant. */
  lemma {:induction false} RunPreserves(s: Session, es: seq<Event>)
    requires Inv(s)
    ensures Inv(Run(s, es))
    decreases |es|
  {
    if |es| > 0 {
      StepPreserves(s, es[0]);
      RunPreserves(Step(s, es[0]), es[1..]);
    }
  }

  /** Questions built from any response, with any admissible draws, keep the
      invariant whatever the user and the timer do afterwards. */
  lemma LoadedQuizKeepsInvariant(items: seq<RawItem>, decode: string -> string, choices: seq<seq<int>>, es: seq<Event>)
    requires AdmissibleFor(items, choices)
    ensures Inv(Run(Begin(LoadQuestions(items, decode, choices)), es))
  {
    BeginEstablishes(LoadQuestions(items, decode, choices));
    RunPreserves(Begin(LoadQuestions(items, decode, choices)), es);
  }

  /** While a question is shown, `indexOf(correctAnswerCopy)` in `checkAnswer`
      finds the correct answer among the options: it is never -1. */
  lemma CorrectAnswerFound(s: Session)
    requires Inv(s) && !s.completed
    ensures 0 <= IndexOf(s.questions[s.current].options, s.questions[s.current].correctAnswer)
              < |s.questions[s.current].options|
  {
    CorrectAnswerListed(s.questions[s.current]);
  }

  /** The events run in two parts are the events run at once. */
  lemma {:induction false} RunAppend(s: Session, a: seq<Event>, b: seq<Event>)
    ensures Run(s, a + b) == Run(Run(s, a), b)
    decreases |a|
  {
    if |a| > 0 {
      assert (a + b)[1..] == a[1..] + b;
      RunAppend(Step(s, a[0]), a[1..], b);
    } else {
      assert a + b == b;
    }
  }

  /** The score never goes down, and it goes up by at most one per Check
      click: selections, Next and the timer never score. */
  lemma {:induction false} ScoreAccounting(s: Session, es: seq<Event>)
    ensures s.score <= Run(s, es).score <= s.score + Checks(es)
    decreases |es|
  {
    if |es| > 0 {
      ScoreAccounting(Step(s, es[0]), es[1..]);
    }
  }

  /** Selecting option `i` and checking scores one exactly when `i` is the
      first position of the correct answer, and nothing otherwise. */
  lemma SelectThenCheck(s: Session, i: nat)
    requires Inv(s) && OptionClickable(s, i)
    ensures var r := Run(s, [OptionClicked(i), CheckClicked]);
      var q := s.questions[s.current];
      && (IsFirstIndex(q.options, q.correctAnswer, i) ==> r.score == s.score + 1)
      && (!IsFirstIndex(q.options, q.correctAnswer, i) ==> r.score == s.score)
      && r.questions == s.questions && r.current == s.current && !r.completed
      && r.nextEnabled && !r.optionsEnabled && !r.timer.running
  {
    var s1 := Step(s, OptionClicked(i));
    assert [OptionClicked(i), CheckClicked][1..] == [CheckClicked];
    assert Run(s, [OptionClicked(i), CheckClicked]) == Run(s1, [CheckClicked]);
    assert Run(s1, [CheckClicked]) == CheckAnswer(s1);
  }

  /** The Check button is not disabled by a check: checking a correct
      selection twice scores twice. */
  lemma SecondCheckScoresAgain(s: Session)
    requires Inv(s) && !s.completed && s.selected.Some?
    requires IsFirstIndex(s.questions[s.current].options, s.questions[s.current].correctAnswer, s.selected.value)
    ensures Run(s, [CheckClicked, CheckClicked]).score == s.score + 2
  {
    var s1 := Step(s, CheckClicked);
    assert [CheckClicked, CheckClicked][1..] == [CheckClicked];
    assert Run(s, [CheckClicked, CheckClicked]) == Run(s1, [CheckClicked]);
    assert Run(s1, [CheckClicked]) == CheckAnswer(s1);
  }

  /** `nextQuestion` does not depend on the timer it is given: `resetTimer`
      replaces it. */
  lemma NextQuestionResetsTimer(s: Session, t: Countdown.Timer)
    ensures NextQuestion(s.(timer := t)) == NextQuestion(s)
  {
  }

  /** While the count stays above zero, each firing only takes one second off. */
  lemma {:induction false} CountingDown(s: Session, k: nat)
    requires Inv(s) && s.timer.running && k < s.timer.remaining
    ensures Run(s, Elapsed(k)) == s.(timer := s.timer.(remaining := s.timer.remaining - k))
    decreases k
  {
    if k > 0 {
      var s1 := Step(s, SecondElapsed);
      assert s1 == s.(timer := s.timer.(remaining := s.timer.remaining - 1));
      StepPreserves(s, SecondElapsed);
      assert Elapsed(k)[1..] == Elapsed(k - 1);
      CountingDown(s1, k - 1);
    } else {
      assert s.(timer := s.timer.(remaining := s.timer.remaining)) == s;
    }
  }

  /** Left alone, a running timer fires `remaining` times and then does what
      a click on Next does: move to the next question with the score as it
      was, so a question left unanswered scores nothing. */
  lemma TimeoutAdvances(s: Session)
    requires Inv(s) && s.timer.running
    ensures Run(s, Elapsed(s.timer.remaining)) == NextQuestion(s)
    ensures Run(s, Elapsed(s.timer.remaining)).score == s.score
    ensures Run(s, Elapsed(s.timer.remaining)).current == s.current + 1
  {
    var n := s.timer.remaining;
    assert Elapsed(n) == Elapsed(n - 1) + [SecondElapsed];
    RunAppend(s, Elapsed(n - 1), [SecondElapsed]);
    CountingDown(s, n - 1);
    var last := s.(timer := s.timer.(remaining := 1));
    assert Run(last, [SecondElapsed]) == Tick(last);
    NextQuestionResetsTimer(s, last.timer);
  }

  /** A question freshly shown and left alone times out after exactly the
      full duration, with the score unchanged. */
  lemma FreshQuestionTimesOut(s: Session)
    requires Inv(s) && !s.completed && s.timer.running
    requires s.timer.remaining == Countdown.Duration
    ensures Run(s, Elapsed(Countdown.Duration - 1)).current == s.current
    ensures Run(s, Elapsed(Countdown.Duration)).current == s.current + 1
    ensures Run(s, Elapsed(Countdown.Duration)).score == s.score
  {
    CountingDown(s, Countdown.Duration - 1);
    TimeoutAdvances(s);
  }

  /** Moving on from the last question shows the answer key: every question,
      in quiz order, each line numbered from 1 and naming its correct answer. */
  lemma LastQuestionShowsKey(s: Session)
    requires Inv(s) && !s.completed && s.current == |s.questions| - 1
    ensures NextQuestion(s).completed
    ensures NextQuestion(s).score == s.score
    ensures NextQuestion(s).answerList == AnswerKey(s.questions)
  {
  }

  /** The timer keeps running after the quiz is completed, and each time it
      runs out the answer key is appended once more. */
  lemma CompletedQuizRepeatsKey(s: Session)
    requires Inv(s) && s.completed && s.timer.running
    ensures var r := Run(s, Elapsed(s.timer.remaining));
      && r.completed && r.score == s.score
      && r.answerList == s.answerList + AnswerKey(s.questions)
      && r.timer.running && r.timer.remaining == Countdown.Duration
  {
    TimeoutAdvances(s);
  }

  /** Answering the current question correctly, moving on, and leaving the
      following question to time out: one point, two questions further on. */
  lemma AnswerThenTimeout(s: Session, i: nat)
    requires Inv(s) && OptionClickable(s, i)
    requires IsFirstIndex(s.questions[s.current].options, s.questions[s.current].correctAnswer, i)
    requires s.current + 1 < |s.questions|
    ensures var r := Run(s, [OptionClicked(i), CheckClicked, NextClicked] + Elapsed(Countdown.Duration));
      && r.score == s.score + 1 && r.current == s.current + 2
      && r.completed == (s.current + 2 == |s.questions|)
  {
    SelectThenCheck(s, i);
    var s2 := Run(s, [OptionClicked(i), CheckClicked]);
    RunPreserves(s, [OptionClicked(i), CheckClicked]);
    assert [OptionClicked(i), CheckClicked] + [NextClicked] == [OptionClicked(i), CheckClicked, NextClicked];
    RunAppend(s, [OptionClicked(i), CheckClicked], [NextClicked]);
    var s3 := Run(s2, [NextClicked]);
    assert s3 == NextQuestion(s2);
    StepPreserves(s2, NextClicked);
    assert !s3.completed && s3.current == s.current + 1;
    RunAppend(s, [OptionClicked(i), CheckClicked, NextClicked], Elapsed(Countdown.Duration));
    TimeoutAdvances(s3);
    assert NextQuestion(s3).completed == (s.current + 2 >= |s.questions|);
  }

  /** "Capital of France?", answered "Paris" among four options. */
  function SampleFirst(): Question {
    Question("Capital of France?", "Paris", ["Rome", "Berlin", "Madrid"], ["Paris", "Rome", "Berlin", "Madrid"])
  }

  /** "3 + 4?", answered "7" among four options. */
  function SampleSecond(): Question {
    Question("3 + 4?", "7", ["5", "6", "8"], ["5", "6", "7", "8"])
  }

  lemma SampleFirstWellFormed()
    ensures WellFormed(SampleFirst())
    ensures IsFirstIndex(SampleFirst().options, SampleFirst().correctAnswer, 0)
  {
    var q := SampleFirst();
    assert q.options == [q.correctAnswer] + q.incorrectAnswers;
  }

  lemma SampleSecondWellFormed()
    ensures WellFormed(SampleSecond())
  {
    var q := SampleSecond();
    assert q.options == q.incorrectAnswers[..2] + [q.correctAnswer] + q.incorrectAnswers[2..];
    assert q.incorrectAnswers == q.incorrectAnswers[..2] + q.incorrectAnswers[2..];
  }

  /** Two questions: the first answered correctly, the second left to time
      out. The quiz ends completed with a score of one. */
  lemma TwoQuestionWalkthrough()
    ensures var r := Run(Begin([SampleFirst(), SampleSecond()]),
                         [OptionClicked(0), CheckClicked, NextClicked] + Elapsed(Countdown.Duration));
      r.score == 1 && r.completed && r.current == 2
  {
    SampleFirstWellFormed();
    SampleSecondWellFormed();
    BeginEstablishes([SampleFirst(), SampleSecond()]);
    AnswerThenTimeout(Begin([SampleFirst(), SampleSecond()]), 0);
  }

}

=== FILE: questions.dfy ===
/** The question records of script.js: the record built for each item of the
    question bank's response, the `indexOf` lookup of the correct answer, and
    the lines of the answer key shown at the end. */
module Questions {

  import opened Decimal
  import Shuffle

  /** One item of the response's `results` array, as fetched. */
  datatype RawItem = RawItem(question: string, correctAnswer: string, incorrectAnswers: seq<string>)

  /** The record the quiz keeps per question. The source stores the decoded
      correct answer twice (`correct_answer` and `correctAnswerCopy`); both
      hold the same string, so one field stands for both. */
  datatype Question = Question(
    question: string,
    correctAnswer: string,
    incorrectAnswers: seq<string>,
    options: seq<string>)

  /** The options are an arrangement of the incorrect answers plus the correct one. */
  predicate WellFormed(q: Question) {
    multiset(q.options) == multiset(q.incorrectAnswers) + multiset{q.correctAnswer}
  }

  /** `i` is the first position at which `x` occurs in `s`. */
  predicate IsFirstIndex<T(==)>(s: seq<T>, x: T, i: int) {
    0 <= i < |s| && s[i] == x && forall k :: 0 <= k < i ==> s[k] != x
  }

  /** `Array.prototype.indexOf`: the first position of `x`, or -1 when absent. */
  function IndexOf<T(==)>(s: seq<T>, x: T): (r: int)
    ensures -1 <= r < |s|
    ensures r == -1 <==> x !in s
    ensures r != -1 ==> IsFirstIndex(s, x, r)
  {
    if |s| == 0 then -1
    else if s[0] == x then 0
    else
      var k := IndexOf(s[1..], x);
      if k == -1 then -1 else k + 1
  }

  /** The decoded texts of one item with its options shuffled: the body of the
      `map` callback in `fetchQuestions`. `decode` stands for `decodeHTML`. */
  function BuildQuestion(item: RawItem, decode: string -> string, choices: seq<int>): (q: Question)
    requires Shuffle.Admissible(choices, |item.incorrectAnswers| + 1)
    ensures WellFormed(q)
    ensures |q.options| == |item.incorrectAnswers| + 1
    ensures q.question == decode(item.question)
    ensures q.correctAnswer == decode(item.correctAnswer)
    ensures q.correctAnswer in q.options
    ensures |q.incorrectAnswers| == |item.incorrectAnswers|
    ensures forall k :: 0 <= k < |item.incorrectAnswers| ==> q.incorrectAnswers[k] == decode(item.incorrectAnswers[k])
  {
    var incorrect := seq(|item.incorrectAnswers|, k requires 0 <= k < |item.incorrectAnswers| => decode(item.incorrectAnswers[k]));
    var correct := decode(item.correctAnswer);
    Question(decode(item.question), correct, incorrect, Shuffle.ShuffleAnswers(incorrect, correct, choices))
  }

  /** `choices[k]` holds admissible draws for the options of `items[k]`. */
  predicate AdmissibleFor(items: seq<RawItem>, choices: seq<seq<int>>) {
    && |choices| == |items|
    && forall k :: 0 <= k < |items| ==> Shuffle.Admissible(choices[k], |items[k].incorrectAnswers| + 1)
  }

  /** `data.results.map(...)`: one well-formed question per item, in order. */
  function LoadQuestions(items: seq<RawItem>, decode: string -> string, choices: seq<seq<int>>): (qs: seq<Question>)
    requires AdmissibleFor(items, choices)
    ensures |qs| == |items|
    ensures forall k :: 0 <= k < |qs| ==> WellFormed(qs[k])
    ensures forall k :: 0 <= k < |qs| ==>
      qs[k].question == decode(items[k].question) && qs[k].correctAnswer == decode(items[k].correctAnswer)
    ensures forall k :: 0 <= k < |qs| ==>
      |qs[k].options| == |items[k].incorrectAnswers| + 1 && |qs[k].incorrectAnswers| == |items[k].incorrectAnswers|
    ensures forall k, j :: 0 <= k < |qs| && 0 <= j < |items[k].incorrectAnswers| ==>
      qs[k].incorrectAnswers[j] == decode(items[k].incorrectAnswers[j])
  {
    seq(|items|, k requires 0 <= k < |items| && AdmissibleFor(items, choices) => BuildQuestion(items[k], decode, choices[k]))
  }

  /** In a well-formed question the correct answer is among the options, so
      `indexOf(correctAnswerCopy)` finds it and is never -1. */
  lemma CorrectAnswerListed(q: Question)
    requires WellFormed(q)
    ensures |q.options| == |q.incorrectAnswers| + 1
    ensures 0 <= IndexOf(q.options, q.correctAnswer) < |q.options|
  {
    assert |multiset(q.options)| == |q.options|;
    assert q.correctAnswer in multiset(q.options);
  }

  /** One line of the answer key: `${index + 1}. ${question} - Correct Answer: ${correctAnswerCopy}`. */
  function AnswerLine(index: nat, q: Question): (line: string)
    ensures var number := NatToDecimal(index + 1);
      |number| + 2 <= |line| && line[..|number| + 2] == number + ". "
    ensures var tail := " - Correct Answer: " + q.correctAnswer;
      |tail| <= |line| && line[|line| - |tail|..] == tail
    ensures var head := |NatToDecimal(index + 1)| + 2;
      var tail := |" - Correct Answer: " + q.correctAnswer|;
      head + |q.question| + tail == |line| && line[head..|line| - tail] == q.question
  {
    NatToDecimal(index + 1) + ". " + q.question + " - Correct Answer: " + q.correctAnswer
  }

  /** The lines `showAnswerKey` appends, one per question in quiz order. */
  function AnswerKey(qs: seq<Question>): (key: seq<string>)
    ensures |key| == |qs|
  {
    seq(|qs|, k requires 0 <= k < |qs| => AnswerLine(k, qs[k]))
  }

  /** Each line of the answer key is numbered with its question's position,
      counted from 1, and ends with that question's correct answer. */
  lemma AnswerKeyLists(qs: seq<Question>, k: nat)
    requires k < |qs|
    ensures LeadingNumber(AnswerKey(qs)[k]) == k + 1
    ensures var line := AnswerKey(qs)[k];
      |qs[k].correctAnswer| <= |line| && line[|line| - |qs[k].correctAnswer|..] == qs[k].correctAnswer
    ensures var line := AnswerKey(qs)[k];
      var head := |NatToDecimal(k + 1)| + 2;
      var tail := |" - Correct Answer: " + qs[k].correctAnswer|;
      head + |qs[k].question| + tail == |line| && line[head..|line| - tail] == qs[k].question
  {
    var rest := ". " + qs[k].question + " - Correct Answer: " + qs[k].correctAnswer;
    assert AnswerKey(qs)[k] == NatToDecimal(k + 1) + rest;
    LeadingNumberOf(k + 1, rest);
  }

}

=== FILE: quiz.dfy ===
/** The quiz session of script.js as an immutable state and pure transitions.

    The module-level variables `questions`, `currentQuestion`, `score`,
    `selectedAnswer` and `timeRemaining` become fields of `Session`. Of the
    page, only what decides which later events can happen is kept: whether
    the option buttons of the current question are still enabled, whether the
    Next button is enabled, whether the quiz-completed view has hidden the
    controls, and the lines appended to the answer list. */
module Quiz {

  import opened Wrappers
  import opened Questions
  import Countdown

  datatype Session = Session(
    questions: seq<Question>,
    current: nat,
    score: nat,
    selected: Option<nat>,
    timer: Countdown.Timer,
    optionsEnabled: bool,
    nextEnabled: bool,
    completed: bool,
    answerList: seq<string>)

  /** The globals as declared, before the questions are fetched. */
  function Loading(): (r: Session)
    ensures r.questions == [] && r.current == 0 && r.score == 0 && r.selected == None
    ensures !r.timer.running && r.timer.remaining == Countdown.Duration
    ensures !r.optionsEnabled && !r.nextEnabled && !r.completed && r.answerList == []
  {
    Session([], 0, 0, None, Countdown.Initial(), false, false, false, [])
  }

  /** `showAnswerKey`: the controls are hidden and one line per question is
      appended to the answer list. */
  function ShowAnswerKey(s: Session): (r: Session)
    ensures r.completed
    ensures |r.answerList| == |s.answerList| + |s.questions|
    ensures r.answerList[..|s.answerList|] == s.answerList
    ensures r.answerList[|s.answerList|..] == AnswerKey(s.questions)
    ensures r.questions == s.questions && r.current == s.current && r.score == s.score
    ensures r.selected == s.selected && r.timer == s.timer
    ensures r.optionsEnabled == s.optionsEnabled && r.nextEnabled == s.nextEnabled
  {
    s.(completed := true, answerList := s.answerList + AnswerKey(s.questions))
  }

  /** `loadQuestion`: past the last question it takes the finish branch and
      shows the answer key without reading `questions[currentQuestion]`;
      otherwise it clears the selection, renders fresh enabled option
      buttons, disables Next and starts the timer. */
  function LoadQuestion(s: Session): (r: Session)
    ensures r.questions == s.questions && r.current == s.current && r.score == s.score
    ensures s.current >= |s.questions| ==>
      && r.completed
      && r.answerList == s.answerList + AnswerKey(s.questions)
      && r.selected == s.selected && r.timer == s.timer
    ensures s.current < |s.questions| ==>
      && r.completed == s.completed
      && r.answerList == s.answerList
      && r.selected == None
      && r.optionsEnabled && !r.nextEnabled
      && r.timer.running && r.timer.remaining == Countdown.Duration
  {
    if s.current >= |s.questions| then ShowAnswerKey(s)
    else s.(selected := None, optionsEnabled := true, nextEnabled := false, timer := Countdown.Start())
  }

  /** A successful `fetchQuestions`: the loaded questions are stored and the
      first one is loaded. An empty list goes straight to the answer key,
      with no timer started. */
  function Begin(qs: seq<Question>): (r: Session)
    ensures r.questions == qs && r.current == 0 && r.score == 0
    ensures |qs| == 0 ==> r.completed && r.answerList == [] && !r.timer.running
    ensures |qs| > 0 ==>
      && !r.completed && r.selected == None && r.answerList == []
      && r.optionsEnabled && !r.nextEnabled
      && r.timer.running && r.timer.remaining == Countdown.Duration
  {
    LoadQuestion(Loading().(questions := qs))
  }

  /** `selectAnswer(button, index)`, state part: the selection is recorded and
      nothing else changes. */
  function SelectAnswer(s: Session, index: nat): (r: Session)
    ensures r.selected == Some(index)
    ensures r.questions == s.questions && r.current == s.current && r.score == s.score
    ensures r.timer == s.timer && r.completed == s.completed && r.answerList == s.answerList
    ensures r.optionsEnabled == s.optionsEnabled && r.nextEnabled == s.nextEnabled
  {
    s.(selected := Some(index))
  }

  /** `checkAnswer`. Without a selection it returns at once. With one, the
      score goes up by one exactly when the selected index is the first
      position of the correct answer among the options; the option buttons
      are disabled, Next is enabled and the timer stops. The Check button
      stays enabled, so a second check scores again.

      Past the last question `questions[currentQuestion]` is undefined and
      reading `.options` of it throws before anything is written; the click
      then leaves the state as it was. */
  function CheckAnswer(s: Session): (r: Session)
    ensures s.selected == None ==> r == s
    ensures r.questions == s.questions && r.current == s.current && r.selected == s.selected
    ensures r.completed == s.completed && r.answerList == s.answerList
    ensures r.score == s.score || r.score == s.score + 1
    ensures s.selected.Some? && s.current < |s.questions| ==>
      && (r.score == s.score + 1 <==>
            IsFirstIndex(s.questions[s.current].options, s.questions[s.current].correctAnswer, s.selected.value))
      && !r.optionsEnabled && r.nextEnabled
      && !r.timer.running && r.timer.remaining == s.timer.remaining
  {
    if s.selected.None? then s
    else if s.current >= |s.questions| then s
    else
      var q := s.questions[s.current];
      var correct := IndexOf(q.options, q.correctAnswer);
      s.(score := if s.selected.value == correct then s.score + 1 else s.score,
         optionsEnabled := false,
         nextEnabled := true,
         timer := Countdown.Stop(s.timer))
  }

  /** `nextQuestion`: the index moves on by one, the next question (or the
      answer key) is loaded, and `resetTimer` then restarts the countdown —
      also after the answer key is shown, so the timer keeps running once the
      quiz is completed. */
  function NextQuestion(s: Session): (r: Session)
    ensures r.questions == s.questions
    ensures r.current == s.current + 1
    ensures r.score == s.score
    ensures r.timer.running && r.timer.remaining == Countdown.Duration
    ensures r.completed <==> s.completed || r.current >= |s.questions|
    ensures r.current < |s.questions| ==> r.selected == None && r.optionsEnabled && !r.nextEnabled
    ensures r.current < |s.questions| ==> r.answerList == s.answerList
    ensures r.current >= |s.questions| ==> r.answerList == s.answerList + AnswerKey(s.questions)
  {
    var t := LoadQuestion(s.(current := s.current + 1));
    t.(timer := Countdown.Reset(t.timer))
  }

  /** One firing of the interval: the count goes down by one, and when it
      reaches zero or below the timer stops and the quiz moves to the next
      question, leaving the score as it was. */
  function Tick(s: Session): (r: Session)
    ensures r.questions == s.questions && r.score == s.score
    ensures s.timer.remaining > 1 ==>
      && r.current == s.current && r.selected == s.selected
      && r.timer.remaining == s.timer.remaining - 1 && r.timer.running == s.timer.running
      && r.optionsEnabled == s.optionsEnabled && r.nextEnabled == s.nextEnabled
      && r.completed == s.completed && r.answerList == s.answerList
    ensures s.timer.remaining <= 1 ==> r == NextQuestion(s)
  {
    var t := s.(timer := Countdown.Decrement(s.timer));
    if t.timer.remaining <= 0 then NextQuestion(t.(timer := Countdown.Stop(t.timer))) else t
  }

}

=== FILE: shuffle.dfy ===
/** The option shuffle of script.js: `shuffleOptions`, the Fisher-Yates swap
    loop, and `shuffleAnswers`, which appends the correct answer to the
    incorrect ones and shuffles the result.

    `Math.random` is replaced by the sequence of indices it leads to: the k-th
    iteration of the loop works on position `i == n - 1 - k` and draws
    `j == Math.floor(Math.random() * (i + 1))`, so `0 <= j <= i`. */
module Shuffle {

  /** `choices` is a sequence of draws the random source can produce for a
      list of `n` options: one draw per loop iteration, each within bounds. */
  predicate Admissible(choices: seq<int>, n: nat) {
    && |choices| == (if n == 0 then 0 else n - 1)
    && forall k :: 0 <= k < |choices| ==> 0 <= choices[k] <= n - 1 - k
  }

  /** Dropping the first draw leaves the draws for the list one shorter. */
  lemma AdmissibleTail(choices: seq<int>, n: nat)
    requires n >= 2 && Admissible(choices, n)
    ensures Admissible(choices[1..], n - 1)
  {
    forall k | 0 <= k < |choices[1..]|
      ensures 0 <= choices[1..][k] <= n - 2 - k
    {
      assert choices[1..][k] == choices[k + 1];
    }
  }

  /** A draw for the last position in front of the draws for the shorter
      list gives draws for the whole list. */
  lemma AdmissibleCons(j: nat, rest: seq<int>, n: nat)
    requires 2 <= n && j < n
    requires Admissible(rest, n - 1)
    ensures Admissible([j] + rest, n)
    ensures ([j] + rest)[0] == j && ([j] + rest)[1..] == rest
  {
    var c := [j] + rest;
    assert c[1..] == rest;
    forall k | 1 <= k < |c|
      ensures 0 <= c[k] <= n - 1 - k
    {
      assert c[k] == rest[k - 1];
    }
  }

  /** The destructuring swap `[a[i], a[j]] = [a[j], a[i]]`. */
  function Swap<T>(s: seq<T>, i: nat, j: nat): (r: seq<T>)
    requires i < |s| && j < |s|
    ensures |r| == |s|
    ensures r[i] == s[j] && r[j] == s[i]
    ensures forall k :: 0 <= k < |s| && k != i && k != j ==> r[k] == s[k]
    ensures multiset(r) == multiset(s)
  {
    s[i := s[j]][j := s[i]]
  }

  /** The loop from the point where the first `m` positions are still
      unsettled (the source's `i` is `m - 1`): while more than one is, swap
      position `m - 1` with the next draw and settle it. Settled positions
      are never touched again. */
  function Settle<T>(a: seq<T>, m: nat, c: seq<int>): (r: seq<T>)
    requires m <= |a|
    requires Admissible(c, m)
    ensures |r| == |a|
    ensures multiset(r) == multiset(a)
    ensures r[m..] == a[m..]
    decreases m
  {
    if m <= 1 then a
    else
      AdmissibleTail(c, m);
      Settle(Swap(a, m - 1, c[0]), m - 1, c[1..])
  }

  /** The whole shuffle: every position starts unsettled. */
  function FisherYates<T>(s: seq<T>, choices: seq<int>): (r: seq<T>)
    requires Admissible(choices, |s|)
    ensures |r| == |s|
    ensures multiset(r) == multiset(s)
  {
    Settle(s, |s|, choices)
  }

  /** `shuffleOptions`: the in-place swap loop, run from the last position
      down to position 1. The loop keeps `m == i + 1`, the number of
      positions not yet settled. */
  method ShuffleOptions<T>(options: seq<T>, choices: seq<int>) returns (r: seq<T>)
    requires Admissible(choices, |options|)
    ensures r == FisherYates(options, choices)
    ensures |r| == |options|
    ensures multiset(r) == multiset(options)
  {
    var a := options;
    var m: nat := |a|;
    var draws := choices;
    while m > 1
      invariant m <= |a|
      invariant Admissible(draws, m)
      invariant Settle(a, m, draws) == FisherYates(options, choices)
    {
      AdmissibleTail(draws, m);
      assert 0 <= draws[0] < m;
      a := Swap(a, m - 1, draws[0]);
      draws := draws[1..];
      m := m - 1;
    }
    r := a;
  }

  /** `shuffleAnswers`: the correct answer appended to the incorrect ones,
      then shuffled. */
  function ShuffleAnswers<T>(incorrect: seq<T>, correct: T, choices: seq<int>): (r: seq<T>)
    requires Admissible(choices, |incorrect| + 1)
    ensures |r| == |incorrect| + 1
    ensures correct in r
    ensures multiset(r) == multiset(incorrect) + multiset{correct}
  {
    var r := FisherYates(incorrect + [correct], choices);
    assert correct in multiset(r);
    r
  }

  /** Swapping inside a prefix is swapping in the whole list and then
      taking the prefix. */
  lemma SwapPrefix<T>(a: seq<T>, m: nat, i: nat, j: nat)
    requires i < m && j < m && m <= |a|
    ensures Swap(a[..m], i, j) == Swap(a, i, j)[..m]
  {
  }

  /** Removing the same element from the end of two arrangements of one
      multiset leaves arrangements of one multiset. */
  lemma DropLast<T>(t: seq<T>, p: seq<T>)
    requires 1 <= |t| == |p|
    requires multiset(t) == multiset(p)
    requires t[|t| - 1] == p[|p| - 1]
    ensures multiset(t[..|t| - 1]) == multiset(p[..|p| - 1])
  {
    var x := t[|t| - 1];
    assert t == t[..|t| - 1] + [x];
    assert p == p[..|p| - 1] + [x];
    assert multiset(t) == multiset(t[..|t| - 1]) + multiset{x};
    assert multiset(p) == multiset(p[..|p| - 1]) + multiset{x};
    assert multiset(t[..|t| - 1]) == multiset(t) - multiset{x};
    assert multiset(p[..|p| - 1]) == multiset(p) - multiset{x};
  }

  /** Two arrangements of one multiset of at most one element are equal. */
  lemma SmallArrangement<T>(t: seq<T>, p: seq<T>)
    requires |t| <= 1
    requires multiset(t) == multiset(p)
    ensures t == p
  {
    assert |p| == |multiset(p)| == |t|;
    if |t| == 1 {
      assert p[0] in multiset(t);
    }
  }

  /** One settling step towards a target arrangement `p`: swapping the
      position holding `p[m - 1]` into place leaves an unsettled prefix that
      is again an arrangement of `p`'s prefix. */
  lemma SettleTowards<T>(a: seq<T>, m: nat, p: seq<T>, j: nat)
    requires 2 <= m <= |a| == |p|
    requires a[m..] == p[m..]
    requires multiset(a[..m]) == multiset(p[..m])
    requires j < m && a[j] == p[m - 1]
    ensures Swap(a, m - 1, j)[m - 1..] == p[m - 1..]
    ensures multiset(Swap(a, m - 1, j)[..m - 1]) == multiset(p[..m - 1])
  {
    var b := Swap(a, m - 1, j);
    assert b[m - 1..] == [p[m - 1]] + p[m..];
    SwapPrefix(a, m, m - 1, j);
    DropLast(b[..m], p[..m]);
    assert b[..m][..m - 1] == b[..m - 1];
    assert p[..m][..m - 1] == p[..m - 1];
  }

  /** With at most one unsettled position the loop is done, and the only
      arrangement of the prefix is the list itself. */
  lemma SettleReachesBase<T>(a: seq<T>, m: nat, p: seq<T>)
    requires m <= 1 && m <= |a| == |p|
    requires a[m..] == p[m..]
    requires multiset(a[..m]) == multiset(p[..m])
    ensures Admissible([], m) && Settle(a, m, []) == p
  {
    SmallArrangement(a[..m], p[..m]);
    assert a == a[..m] + a[m..];
    assert p == p[..m] + p[m..];
  }

  /** A draw `j` in front of draws for the shorter prefix runs the loop on
      the list with `j` swapped into the last unsettled position. */
  lemma SettleCons<T>(a: seq<T>, m: nat, j: nat, rest: seq<int>)
    requires 2 <= m <= |a| && j < m
    requires Admissible(rest, m - 1)
    ensures Admissible([j] + rest, m)
    ensures Settle(a, m, [j] + rest) == Settle(Swap(a, m - 1, j), m - 1, rest)
  {
    AdmissibleCons(j, rest, m);
  }

  /** From any point of the loop, every arrangement of the unsettled prefix
      is produced by some admissible sequence of the remaining draws. */
  lemma {:induction false} SettleReaches<T>(a: seq<T>, m: nat, p: seq<T>)
    requires m <= |a| == |p|
    requires a[m..] == p[m..]
    requires multiset(a[..m]) == multiset(p[..m])
    ensures exists c :: Admissible(c, m) && Settle(a, m, c) == p
    decreases m
  {
    if m <= 1 {
      SettleReachesBase(a, m, p);
    } else {
      assert p[m - 1] == p[..m][m - 1];
      assert p[m - 1] in multiset(a[..m]);
      var j :| 0 <= j < m && a[..m][j] == p[m - 1];
      SettleTowards(a, m, p, j);
      SettleReaches(Swap(a, m - 1, j), m - 1, p);
      var rest :| Admissible(rest, m - 1) && Settle(Swap(a, m - 1, j), m - 1, rest) == p;
      SettleCons(a, m, j, rest);
    }
  }

  /** Every arrangement of the options is produced by some admissible
      sequence of draws: the shuffle can reach every permutation. */
  lemma EveryArrangementReachable<T>(s: seq<T>, p: seq<T>)
    requires multiset(p) == multiset(s)
    ensures exists c :: Admissible(c, |s|) && FisherYates(s, c) == p
  {
    assert |p| == |multiset(p)| == |s|;
    assert s[..|s|] == s && p[..|p|] == p;
    SettleReaches(s, |s|, p);
  }

}

=== FILE: wrappers.dfy ===
/** The optional value used for the quiz's `selectedAnswer`, which is either
    `null` or the index of an option button. */
module Wrappers {

  datatype Option<+T> = None | Some(value: T)

}
